=== FILE: README.md ===
# callsy core logic, modelled in Dafny

This project models the logic of a Next.js voice-room application in Dafny:

- **Two in-memory stores.** `src/lib/room.ts` keeps a `Map` of rooms whose participants are records. `src/lib/db.ts` keeps a user list and a room list whose participants are usernames.
- **The credentials sign-in check and the session callback** of `src/lib/auth.ts`.
- **The registration form** of `src/app/register/page.tsx`: password-strength scoring, its label and colour, field edits, validation and the decision to post the form.
- **The room lobby** of `src/app/room/page.tsx`: joining by a typed id and creating a room under a generated id.
- **The side pane's interaction state** in `src/components/Common/upane.tsx`.

Every operation is a pure function from the old state to the new one. `Math.random()`, `new Date()` and bcrypt are inputs:

- The six random draws behind a room id are a parameter, each a real in [0, 1).
- Timestamps are opaque naturals.
- Password hashing is a function parameter.
- Password comparison is an oracle that returns a verdict or throws.

Navigation is a returned target path.

`src/app/room/[id]/page.tsx` holds the voice-room client: socket.io room events, simple-peer links with one initiating side, the dropped answer in the stable state, the mute flag and the teardown. It talks to a separate socket server (`NEXT_PUBLIC_SOCKET_SERVER`) and to WebRTC, and it is not modelled.

Modules: one per source file, two more for parts of `src/lib/room.ts` (`RoomIds`) and `src/app/register/page.tsx` (`EmailPattern`) that deserve their own proofs, and two shared helpers (`Optional`, `Seqs`):

| module | file | models |
|---|---|---|
| `Optional` | optional.dfy | `T \| undefined` / `T \| null` results |
| `Seqs` | seqs.dfy | `Array.prototype.filter` and `find`, and duplicate-freedom |
| `RoomIds` | room_ids.dfy | `generateRoomId` |
| `RoomRegistry` | room_registry.dfy | `src/lib/room.ts` |
| `UserStore` | user_store.dfy | `src/lib/db.ts` |
| `Auth` | auth.dfy | `src/lib/auth.ts` |
| `EmailPattern` | email_pattern.dfy | the e-mail regular expression of the registration form |
| `RegisterForm` | register_form.dfy | `src/app/register/page.tsx` |
| `RoomPage` | room_page.dfy | `src/app/room/page.tsx` |
| `Pane` | pane.dfy | `src/components/Common/upane.tsx` |

A JavaScript `Map` iterates in key-insertion order, and `getAllRooms` exposes that order. So `RoomRegistry.Registry` keeps the keys in insertion order beside the key-to-room map. `RoomRegistry.Valid` is the invariant that ties the two together. Every operation preserves it.

## Model

| member | source | states |
|---|---|---|
| RoomIds.PickIndex | src/lib/room.ts:7 | `Math.floor(Math.random() * chars.length)` always lands inside the 36-character alphabet, at the position whose unit interval holds the scaled draw |
| RoomIds.CharsAreIdChars | src/lib/room.ts:6 | the alphabet string holds exactly the upper-case letters and digits, 36 of them |
| RoomIds.GenerateRoomId | src/lib/room.ts:5-8 | every generated id has exactly 6 characters, each in A–Z or 0–9 |
| RoomIds.EveryRoomIdIsGenerated | src/lib/room.ts:5-8 | conversely, every 6-character A–Z0–9 string is produced by some sequence of draws |
| RoomRegistry.MapSet | src/lib/room.ts:20 | `Map.set` replaces the value; a new key goes last in iteration order and an existing key keeps its place |
| RoomRegistry.MapSetValid | src/lib/room.ts:3 | storing a room under its own id keeps the map's order and contents consistent |
| RoomRegistry.EmptyValid | src/lib/room.ts:3 | the initial empty map is consistent and lists no rooms |
| RoomRegistry.GetRoom | src/lib/room.ts:24-26 | returns the room stored under the id, and undefined exactly when the id is absent |
| RoomRegistry.CreateRoom | src/lib/room.ts:10-22 | the new room has the id generated from the draws, the given name and creator, and no participants; `getRoom` of its id returns it; every other id is unaffected; a fresh id goes last in iteration order, and a taken id keeps its place |
| RoomRegistry.CreateRoomValid | src/lib/room.ts:10-22 | creating a room keeps the registry consistent |
| RoomRegistry.CreateRoomListsLast | src/lib/room.ts:10-22 | a room created under a fresh id is listed by `getAllRooms` after all earlier rooms |
| RoomRegistry.CreateRoomOverwrites | src/lib/room.ts:11-20 | there is no collision check: on a taken id the old room is replaced by an empty one and no key is added |
| RoomRegistry.AddParticipant | src/lib/room.ts:28-36 | an unknown room id gives undefined and no change; otherwise exactly the given participant is appended, and the room's id, name, creator and creation time stay as they were; no other room changes and iteration order is kept |
| RoomRegistry.AddParticipantValid | src/lib/room.ts:28-36 | adding a participant keeps the registry consistent |
| RoomRegistry.AddParticipantTwiceDuplicates | src/lib/room.ts:32 | adding the same participant twice stores it twice: no deduplication |
| RoomRegistry.Without | src/lib/room.ts:42 | a participant survives the filter iff it was present and its user id differs |
| RoomRegistry.RemoveParticipant | src/lib/room.ts:38-46 | an unknown room id gives undefined and no change; otherwise the room's participants become `Without` of the old list, so survivors keep their order and multiplicity, and the room's id, name, creator and creation time stay as they were; no other room changes |
| RoomRegistry.RemoveParticipantValid | src/lib/room.ts:38-46 | removing participants keeps the registry consistent |
| RoomRegistry.RemoveParticipantKeepsOrder | src/lib/room.ts:42 | the filter distributes over concatenation, so survivors keep their relative order |
| RoomRegistry.RemoveAbsentUserKeepsParticipants | src/lib/room.ts:42 | removing a user who is not in the room leaves the participant list unchanged |
| RoomRegistry.RemoveParticipantIdempotent | src/lib/room.ts:38-46 | a second removal of the same user at the same instant changes nothing |
| RoomRegistry.DeleteRoom | src/lib/room.ts:48-50 | returns true iff the id was present, and on false the registry is unchanged; afterwards `getRoom` of it is undefined and every other id is unaffected |
| RoomRegistry.DeleteRoomListing | src/lib/room.ts:48-54 | after deleting, `getAllRooms` lists the earlier rooms without the deleted one, in their old order |
| RoomRegistry.DeleteRoomValid | src/lib/room.ts:48-50 | deleting keeps the registry consistent, removing the key from the iteration order |
| RoomRegistry.GetAllRooms | src/lib/room.ts:52-54 | lists each stored room exactly once, in insertion order, and nothing else |
| RoomRegistry.GetRoomsByUser | src/lib/room.ts:56-59 | returns exactly the stored rooms created by the user or holding a participant with that user id, each once, their ids in the map's insertion order |
| UserStore.FindUser | src/lib/db.ts:34-38 | returns the first user with the username, and null iff no user has it |
| UserStore.CreateUser | src/lib/db.ts:40-49 | appends exactly one user with the given name and e-mail and the hash of the password; rooms are untouched |
| UserStore.CreateUserShadowing | src/lib/db.ts:40-49 | there is no duplicate check: a second account with a taken name is stored but `findUser` still returns the first; a fresh name is found as the new user |
| UserStore.CreateRoom | src/lib/db.ts:51-60 | the new room, appended to the list, has exactly its creator as participant |
| UserStore.FindRoom | src/lib/db.ts:62-64 | returns the first stored room with that id, and null iff there is none |
| UserStore.FindRoomsByUser | src/lib/db.ts:66-68 | returns exactly the rooms whose participant list contains the username, each as often as the list holds it |
| UserStore.FindRoomsByUserAppend | src/lib/db.ts:66-68 | on a list made of two parts, the rooms found in the first part come before those found in the second |
| UserStore.FindRoomsByUserAfterCreate | src/lib/db.ts:51-68 | a room created later comes after the rooms found before, and is found only for its creator |
| UserStore.JoinRoom | src/lib/db.ts:70-78 | an unknown id gives null and no change; otherwise the username is appended only if absent and the room's id, name and creator stay; only the first room with that id changes; users are untouched |
| UserStore.LeaveRoom | src/lib/db.ts:80-85 | an unknown id gives null and no change; otherwise every occurrence of the username is removed and the others stay in order; only that room changes |
| UserStore.JoinRoomIdempotent | src/lib/db.ts:74-77 | joining twice has the same result and state as joining once |
| UserStore.LeaveRoomIdempotent | src/lib/db.ts:84 | leaving twice has the same result and state as leaving once |
| UserStore.RoomOperationsKeepParticipantsDistinct | src/lib/db.ts:51-85 | creating, joining and leaving keep every participant list free of duplicates |
| UserStore.JoinThenLeaveRestores | src/lib/db.ts:70-85 | for a username not yet in the room, joining and then leaving restores the whole database |
| Auth.Authorize | src/lib/auth.ts:20-56 | missing username or password gives null, whatever the store holds; an unknown user gives null; a non-null result comes from the first stored user with that name, the one `findUser` returns, whose hash the oracle accepted, with `id = name = username` and the stored e-mail |
| Auth.AuthorizeSucceedsExactly | src/lib/auth.ts:23-51 | sign-in succeeds iff credentials are present, the user exists, and the comparison against the first such user returns true; a false or thrown comparison gives null |
| Auth.SessionCallback | src/lib/auth.ts:66-71 | with a session user, the user's id becomes `token.sub` and nothing else changes; without one, the session is returned unchanged |
| Auth.SessionCallbackIdempotent | src/lib/auth.ts:66-71 | running the callback twice with the same token equals running it once |
| EmailPattern.MatchesIffRegex | src/app/register/page.tsx:82 | the two-index characterisation holds exactly when `/\S+@\S+\.\S+/` matches some substring |
| EmailPattern.Test | src/app/register/page.tsx:82 | the single-pass scan returns true iff the unanchored regular expression matches |
| RegisterForm.PasswordStrength | src/app/register/page.tsx:47-55 | the score is always between 0 and 5 |
| RegisterForm.StrengthCountsCriteria | src/app/register/page.tsx:49-53 | the score equals the number of criteria met: length ≥ 8, lower-case, upper-case, digit, other character |
| RegisterForm.StrengthMonotone | src/app/register/page.tsx:49-53 | appending characters never loses a criterion, so never lowers the score |
| RegisterForm.StrengthColor | src/app/register/page.tsx:147-152 | the colour is red for a score up to 2, yellow for 3, blue for 4, green above |
| RegisterForm.StrengthText | src/app/register/page.tsx:154-159 | the label is weak for a score up to 2, fair for 3, good for 4, strong above |
| RegisterForm.StrongExactlyWhenAllCriteria | src/app/register/page.tsx:47-159 | the strong label and the green colour show exactly when the password meets all five criteria |
| RegisterForm.ColorAndTextShareBuckets | src/app/register/page.tsx:147-159 | the colour and the label split scores into the same four buckets (≤ 2, 3, 4, 5): two scores share a colour iff they share a label |
| RegisterForm.Set | src/app/register/page.tsx:58 | the edited field takes the new value and every other field keeps its value |
| RegisterForm.ClearError | src/app/register/page.tsx:64-66 | only the edited field's error is cleared |
| RegisterForm.HandleInputChange | src/app/register/page.tsx:57-69 | updates only the named field, rescoring the strength only for the password; clears only that field's error and the banner |
| RegisterForm.ValidateForm | src/app/register/page.tsx:71-104 | passes iff username length ≥ 3, e-mail matches the pattern, password length ≥ 8, confirmation non-empty and equal, terms accepted; an empty field gets "required", never the length, format or mismatch error; each field is free of errors exactly when its own condition holds |
| RegisterForm.HandleRegister | src/app/register/page.tsx:106-139 | a request is issued iff validation passes, carrying the form's username, e-mail, password and phone; the validation errors are always recorded; the banner is cleared only when a request is issued; nothing else in the form state changes |
| RegisterForm.HandleKeyPress | src/app/register/page.tsx:141-145 | only Enter submits; then it records the validation errors, changes nothing else except the banner, and issues a request iff the form is valid, carrying the form's username, e-mail, password and phone; the banner is cleared exactly when the request is issued |
| RoomPage.HandleJoinIdChange | src/app/room/page.tsx:36-38 | the stored id has the input's length; each letter a–z becomes its own capital, and every other character stays unchanged |
| RoomPage.HandleJoinIdChangeIdempotent | src/app/room/page.tsx:36-38 | upper-casing a stored id again changes nothing |
| RoomPage.RoomPath | src/app/room/page.tsx:25 | the target is `/room/` followed by the id |
| RoomPage.RoomPathInjective | src/app/room/page.tsx:33 | different ids navigate to different pages |
| RoomPage.CreateRoom | src/app/room/page.tsx:23-26 | creating navigates to `/room/` followed by a valid generated id |
| RoomPage.JoinRoom | src/app/room/page.tsx:28-34 | navigates to `/room/<id>` iff the stored id has exactly 6 characters, otherwise nowhere |
| RoomPage.JoinDependsOnlyOnLength | src/app/room/page.tsx:29 | ids of equal length are accepted or refused alike, whatever their characters |
| RoomPage.GeneratedIdJoinsSamePage | src/app/room/page.tsx:23-34 | typing a generated id into the join box passes the check and reaches the page that creating it reached |
| Pane.PaneClick | src/components/Common/upane.tsx:51-57 | the pane's expansion flips iff the device is a touch device with settings closed; nothing else changes |
| Pane.DoubleClickRestores | src/components/Common/upane.tsx:51-57 | two clicks leave the pane as it was |
| Pane.HoverStart | src/components/Common/upane.tsx:59-63 | expands on a pointer device with settings closed; otherwise changes nothing |
| Pane.HoverEnd | src/components/Common/upane.tsx:65-69 | collapses on a pointer device with settings closed; otherwise changes nothing |
| Pane.OpenSettings | src/components/Common/upane.tsx:368-371 | opens settings and changes nothing else |
| Pane.CloseSettings | src/components/Common/upane.tsx:137-142 | closes settings, and collapses the pane on a touch device only |
| Pane.SelectTheme | src/components/Common/upane.tsx:212 | sets the theme and changes nothing else |
| Pane.SettingsOpenFreezesExpansion | src/components/Common/upane.tsx:51-69 | while settings stay open, no sequence of clicks, hovers or theme choices changes whether the pane is expanded |
| Pane.Initial | src/components/Common/upane.tsx:28-32 | the pane starts collapsed with settings closed, on the detected device kind |
| Pane.RunAppend | src/components/Common/upane.tsx:51-69 | handling two batches of events in turn is handling them together |
| Pane.RunKeepsDevice | src/components/Common/upane.tsx:31-32 | no pane event changes whether the device counts as touch, and the theme after any events is the one chosen last |
| Pane.InitialRun | src/components/Common/upane.tsx:28-32 | starting from the initial state, no pane event (click, hover, settings, theme) changes the touch flag, and the dark classes stay until a theme is chosen |
| Pane.DisplayRooms | src/components/Common/upane.tsx:71 | the shown rooms are the first min(3, n) rooms of the list, as a prefix |
| Pane.RemainingCount | src/components/Common/upane.tsx:72 | the "+N more" count is zero iff at most three rooms exist |
| Pane.DisplayAndRemainingPartition | src/components/Common/upane.tsx:71-72 | shown rooms plus the remaining count make up the whole list |
| Pane.ThemeClasses | src/components/Common/upane.tsx:74-87 | any value other than the three named non-default themes gets the dark classes |
| Pane.ThemeClassesDistinct | src/components/Common/upane.tsx:74-87 | the four themes get four different class strings, and a value gets the dark classes exactly when it is not one of the other three |

## Left out

- The voice-room client in src/app/room/[id]/page.tsx: socket.io room events, the simple-peer initiator and responder, the dropped answer in the stable state, the mute flag and the teardown. It drives a separate socket server and WebRTC connections, which are I/O outside these pure state functions.
- src/app/api/register/route.ts, src/auth/auth.ts, src/app/layout.tsx and src/app/page.tsx are not part of this model. They are HTTP plumbing, provider configuration and rendering.
- bcrypt: hashing is the `hash` parameter of `UserStore.CreateUser`. Comparison is the `compare` oracle of `Auth.Authorize`. Salting and the cost factor are not modelled.
- `Math.random()` and `new Date()`: the draws and timestamps are parameters. The `db.ts` room id (`Math.random().toString(36).substring(7)`) is the `id` parameter of `UserStore.CreateRoom`.
- The asynchronous test-user seeding at module load (src/lib/db.ts:21-32): it is initialisation that depends on hashing.
- Logging, `fetch`, the success banner, setting the error banner from the `fetch` response (src/app/register/page.tsx:126-135), `isLoading`, password-visibility toggles, `setTimeout` and `router.push`, and `alert`: these are effects. Navigation is a returned path, and a refused join returns no path.
- The pane's device detection from `window` and `navigator` (src/components/Common/upane.tsx:35-49): it reads browser state and runs again on every `resize`, so the touch flag can change between events. Until it first runs, the flag is `false`. The model takes the detected flag as a parameter of `Pane.Initial` and does not model re-detection. `isMobilePhone`, `barStyle`, animation values and JSX layout are rendering.
- Object aliasing: `getRoom`, `findRoom` and the join and leave functions return the stored object itself, so a caller would see later in-place changes. The model returns values, that is, snapshots.
- Validation messages: they are the `FieldError` cases rather than the page's Turkish strings.
- The `maxLength={6}` attribute of the join input: it is browser behaviour that limits typing, not page logic.
- String lengths: JavaScript counts UTF-16 code units and Dafny counts code points. Length checks (`RegisterForm.PasswordStrength`, `RegisterForm.ValidateForm`, `RoomPage.JoinRoom`) differ from the source only for characters outside the Basic Multilingual Plane.
- RoomPage.HandleJoinIdChange: upper-cases only the ASCII letters a–z. `toUpperCase` applies full Unicode case mapping, which can also change other letters and the length (`ß` becomes `SS`).
- Auth.Authorize: undefined credential fields are modelled as empty strings. Both are falsy in the source, so the guard treats them alike.
- Auth.SessionCallback: the session argument itself is assumed present. The `?.` guard on a null session is not modelled.

=== FILE: auth.dfy ===
/**
  The credentials sign-in check and the session callback of the
  authentication configuration.

  The bcrypt comparison is an oracle parameter: given the submitted password
  and the stored hash it either returns a verdict or throws. The user lookup
  is the `findUser` of the user store.
 */
module Auth {
  import opened Optional
  import UserStore

  /** The submitted form fields; an empty string stands for a missing field. */
  datatype Credentials = Credentials(username: string, password: string)

  /** What `bcrypt.compare` does: resolve to a verdict or reject. */
  datatype CompareOutcome = Returned(valid: bool) | Threw

  /** The user object handed to the session on success. */
  datatype AuthUser = AuthUser(id: string, name: string, email: string)

  /** `!credentials?.username || !credentials?.password`. */
  predicate MissingCredentials(credentials: Option<Credentials>) {
    credentials.None? || credentials.value.username == "" || credentials.value.password == ""
  }

  /** `authorize`: null unless the first stored user with that name has a hash the oracle accepts. */
  function Authorize(
    credentials: Option<Credentials>,
    db: UserStore.Db,
    compare: (string, string) -> CompareOutcome)
    : (res: Option<AuthUser>)
    ensures MissingCredentials(credentials) ==> res.None?
    ensures !MissingCredentials(credentials) ==>
      (forall i :: 0 <= i < |db.users| ==> db.users[i].username != credentials.value.username) ==>
      res.None?
    ensures res.Some? ==> !MissingCredentials(credentials)
    ensures res.Some? ==> exists i ::
      && 0 <= i < |db.users|
      && db.users[i].username == credentials.value.username
      && (forall j :: 0 <= j < i ==> db.users[j].username != credentials.value.username)
      && compare(credentials.value.password, db.users[i].password) == Returned(true)
      && res.value == AuthUser(db.users[i].username, db.users[i].username, db.users[i].email)
  {
    if MissingCredentials(credentials) then None
    else
      var c := credentials.value;
      match UserStore.FindUser(db, c.username)
      case None => None
      case Some(user) =>
        match compare(c.password, user.password)
        case Threw => None
        case Returned(valid) =>
          if !valid then None
          else Some(AuthUser(user.username, user.username, user.email))
  }

  /**
    Sign-in succeeds exactly when the credentials are present, a user with
    that name exists, and the oracle accepts the password against the first
    such user's hash; a rejected or thrown comparison gives null.
   */
  lemma AuthorizeSucceedsExactly(
    credentials: Option<Credentials>,
    db: UserStore.Db,
    compare: (string, string) -> CompareOutcome)
    ensures Authorize(credentials, db, compare).Some? <==>
      && !MissingCredentials(credentials)
      && UserStore.FindUser(db, credentials.value.username).Some?
      && compare(credentials.value.password, UserStore.FindUser(db, credentials.value.username).value.password)
         == Returned(true)
  {
  }

  /** The user part of a session; `id` is what the callback sets. */
  datatype SessionUser = SessionUser(id: Option<string>, name: Option<string>, email: Option<string>, image: Option<string>)

  datatype Session = Session(user: Option<SessionUser>, expires: string)

  /** The JWT token; `sub` may be absent. */
  datatype Token = Token(sub: Option<string>)

  /** The `session` callback: copy the token subject into the session user's id, when there is a user. */
  function SessionCallback(session: Session, token: Token): (res: Session)
    ensures session.user.None? ==> res == session
    ensures session.user.Some? ==> res.user.Some? && res.user.value.id == token.sub
    ensures session.user.Some? ==> res.user.value.(id := session.user.value.id) == session.user.value
    ensures res.expires == session.expires
  {
    match session.user
    case None => session
    case Some(u) => session.(user := Some(u.(id := token.sub)))
  }

  /** Running the callback again with the same token changes nothing. */
  lemma SessionCallbackIdempotent(session: Session, token: Token)
    ensures SessionCallback(SessionCallback(session, token), token) == SessionCallback(session, token)
  {
  }
}

=== FILE: email_pattern.dfy ===
/**
  The unanchored regular expression `/\S+@\S+\.\S+/` the registration form
  tests e-mail addresses with.

  `RegexMatches` states what `test` means: some substring is a non-empty run
  of non-whitespace characters, an `@`, another non-empty run, a `.`, and a
  third non-empty run. `Matches` is the equivalent two-index form, and
  `Test` decides it in one left-to-right scan.
 */
module EmailPattern {

  /** JavaScript's `\s`: the ECMAScript white-space and line-terminator characters. */
  predicate IsSpace(c: char) {
    var n := c as int;
    || n == 0x09 || n == 0x0A || n == 0x0B || n == 0x0C || n == 0x0D || n == 0x20
    || n == 0xA0 || n == 0x1680 || (0x2000 <= n <= 0x200A)
    || n == 0x2028 || n == 0x2029 || n == 0x202F || n == 0x205F || n == 0x3000 || n == 0xFEFF
  }

  /** No white space in `s[lo..hi]`. */
  predicate NoSpaceIn(s: string, lo: int, hi: int)
    requires 0 <= lo <= hi <= |s|
  {
    forall k :: lo <= k < hi ==> !IsSpace(s[k])
  }

  /** `s[i..j]` is matched by the pattern, with the `@` at `a` and the `.` at `d`. */
  predicate MatchAt(s: string, i: int, a: int, d: int, j: int) {
    && 0 <= i < a
    && a + 1 < d
    && d + 1 < j <= |s|
    && s[a] == '@'
    && s[d] == '.'
    && NoSpaceIn(s, i, a)
    && NoSpaceIn(s, a + 1, d)
    && NoSpaceIn(s, d + 1, j)
  }

  /** `/\S+@\S+\.\S+/.test(s)`: the pattern matches somewhere in `s`. */
  ghost predicate RegexMatches(s: string) {
    exists i, a, d, j :: MatchAt(s, i, a, d, j)
  }

  /** An `@` at `a` and a `.` at `d` with the shortest runs around them. */
  predicate Shape(s: string, a: int, d: int) {
    && 0 < a
    && a + 1 < d
    && d + 1 < |s|
    && s[a] == '@'
    && s[d] == '.'
    && !IsSpace(s[a - 1])
    && NoSpaceIn(s, a + 1, d)
    && !IsSpace(s[d + 1])
  }

  /** The pattern matches iff some `@` and `.` are placed as `Shape` requires. */
  predicate Matches(s: string) {
    exists a, d | 0 < a < |s| && 0 < d < |s| :: Shape(s, a, d)
  }

  /** The two-index form says exactly what the regular expression does. */
  lemma MatchesIffRegex(s: string)
    ensures Matches(s) <==> RegexMatches(s)
  {
    if Matches(s) {
      var a, d :| 0 < a < |s| && 0 < d < |s| && Shape(s, a, d);
      assert MatchAt(s, a - 1, a, d, d + 2);
    }
    if RegexMatches(s) {
      var i, a, d, j :| MatchAt(s, i, a, d, j);
      assert Shape(s, a, d);
    }
  }

  /**
    An `@` at `a` that can still start a match once the scan has read
    `s[..k]`: a non-space character precedes it and none follows it yet.
   */
  predicate Candidate(s: string, a: int, k: int) {
    0 < a < k <= |s| && s[a] == '@' && !IsSpace(s[a - 1]) && NoSpaceIn(s, a + 1, k)
  }

  /** How reading one more character changes the set of candidates. */
  lemma CandidateStep(s: string, a: int, k: int)
    requires 0 <= k < |s|
    ensures Candidate(s, a, k + 1) <==>
      (Candidate(s, a, k) && !IsSpace(s[k])) || (a == k && 0 < k && s[k] == '@' && !IsSpace(s[k - 1]))
  {
  }

  /**
    `test` in one pass: remember the earliest candidate `@` of the current
    non-space run, and accept at the first `.` that has a character between
    it and that `@` and a non-space character after it.
   */
  method Test(s: string) returns (b: bool)
    ensures b <==> Matches(s)
    ensures b <==> RegexMatches(s)
  {
    MatchesIffRegex(s);
    var cand := -1;
    var k := 0;
    while k < |s|
      invariant 0 <= k <= |s|
      invariant -1 <= cand < k
      invariant cand >= 0 ==> Candidate(s, cand, k)
      invariant forall a :: 0 <= a < k && (cand < 0 || a < cand) ==> !Candidate(s, a, k)
      invariant forall a, d :: 0 < a < |s| && 0 < d < |s| && d + 1 < k ==> !Shape(s, a, d)
    {
      if 2 <= k && s[k - 1] == '.' && !IsSpace(s[k]) && 0 <= cand && cand + 1 < k - 1 {
        assert Shape(s, cand, k - 1);
        return true;
      }
      var d := k - 1;
      forall a | 0 < a < |s| ensures !Shape(s, a, d) {
        if Shape(s, a, d) {
          assert Candidate(s, a, k);
        }
      }
      var next := k + 1;
      forall a | 0 <= a < next ensures Candidate(s, a, next) <==>
        (Candidate(s, a, k) && !IsSpace(s[k])) || (a == k && 0 < k && s[k] == '@' && !IsSpace(s[k - 1]))
      {
        CandidateStep(s, a, k);
      }
      if IsSpace(s[k]) {
        cand := -1;
      } else if cand < 0 && 0 < k && s[k] == '@' && !IsSpace(s[k - 1]) {
        cand := k;
      }
      k := next;
    }
    return false;
  }
}

=== FILE: optional.dfy ===
/** The optional value the TypeScript code expresses as `T | undefined` or `T | null`. */
module Optional {

  datatype Option<+T> = None | Some(value: T)
}

=== FILE: pane.dfy ===
/**
  The side pane's interaction logic: expanding on click (touch devices) or
  hover (pointer devices), the settings view, the shortened room list and
  the theme classes.

  The pane's React state is a `PaneState` value and each handler returns
  the next one. Whether the device is a touch device is part of the state,
  as the page's device detection leaves it.
 */
module Pane {

  datatype PaneState = PaneState(
    isExpanded: bool,
    isSettingsOpen: bool,
    isTouchDevice: bool,
    theme: string)

  /** The pane's state at first render, once the device kind is detected. */
  function Initial(isTouchDevice: bool): (s: PaneState)
    ensures !s.isExpanded && !s.isSettingsOpen && s.isTouchDevice == isTouchDevice
  {
    PaneState(false, false, isTouchDevice, "dark")
  }

  /** `handlePaneClick`: toggle expansion on a touch device while settings are closed. */
  function PaneClick(s: PaneState): (r: PaneState)
    ensures r.(isExpanded := s.isExpanded) == s
    ensures r.isExpanded != s.isExpanded <==> s.isTouchDevice && !s.isSettingsOpen
  {
    if s.isTouchDevice && !s.isSettingsOpen then s.(isExpanded := !s.isExpanded) else s
  }

  /** `handleHoverStart`: expand on a pointer device while settings are closed. */
  function HoverStart(s: PaneState): (r: PaneState)
    ensures r.(isExpanded := s.isExpanded) == s
    ensures !s.isTouchDevice && !s.isSettingsOpen ==> r.isExpanded
    ensures s.isTouchDevice || s.isSettingsOpen ==> r == s
  {
    if !s.isTouchDevice && !s.isSettingsOpen then s.(isExpanded := true) else s
  }

  /** `handleHoverEnd`: collapse on a pointer device while settings are closed. */
  function HoverEnd(s: PaneState): (r: PaneState)
    ensures r.(isExpanded := s.isExpanded) == s
    ensures !s.isTouchDevice && !s.isSettingsOpen ==> !r.isExpanded
    ensures s.isTouchDevice || s.isSettingsOpen ==> r == s
  {
    if !s.isTouchDevice && !s.isSettingsOpen then s.(isExpanded := false) else s
  }

  /** The settings button: open the settings view. */
  function OpenSettings(s: PaneState): (r: PaneState)
    ensures r.isSettingsOpen
    ensures r.(isSettingsOpen := s.isSettingsOpen) == s
  {
    s.(isSettingsOpen := true)
  }

  /** The settings back button: close settings, and on a touch device collapse the pane too. */
  function CloseSettings(s: PaneState): (r: PaneState)
    ensures !r.isSettingsOpen
    ensures s.isTouchDevice ==> !r.isExpanded
    ensures !s.isTouchDevice ==> r.isExpanded == s.isExpanded
    ensures r.isTouchDevice == s.isTouchDevice && r.theme == s.theme
  {
    var closed := s.(isSettingsOpen := false);
    if s.isTouchDevice then closed.(isExpanded := false) else closed
  }

  /** A theme button: `setTheme`. */
  function SelectTheme(s: PaneState, theme: string): (r: PaneState)
    ensures r.theme == theme
    ensures r.(theme := s.theme) == s
  {
    s.(theme := theme)
  }

  /** The user actions the pane reacts to. */
  datatype Event = Click | HoverIn | HoverOut | SettingsOpened | SettingsClosed | ThemeChosen(theme: string)

  function Step(s: PaneState, e: Event): PaneState {
    match e
    case Click => PaneClick(s)
    case HoverIn => HoverStart(s)
    case HoverOut => HoverEnd(s)
    case SettingsOpened => OpenSettings(s)
    case SettingsClosed => CloseSettings(s)
    case ThemeChosen(t) => SelectTheme(s, t)
  }

  /** The state after a sequence of events. */
  function Run(s: PaneState, events: seq<Event>): PaneState
    decreases |events|
  {
    if |events| == 0 then s else Run(Step(s, events[0]), events[1..])
  }

  /** Running two batches of events in turn is running them together. */
  lemma {:induction false} RunAppend(s: PaneState, a: seq<Event>, b: seq<Event>)
    ensures Run(s, a + b) == Run(Run(s, a), b)
    decreases |a|
  {
    if |a| == 0 {
      assert a + b == b;
    } else {
      assert (a + b)[1..] == a[1..] + b;
      RunAppend(Step(s, a[0]), a[1..], b);
    }
  }

  /** The theme most recently chosen among `events`, or `current` when none was chosen. */
  function LastChosenTheme(events: seq<Event>, current: string): string
    decreases |events|
  {
    if |events| == 0 then current
    else if events[|events| - 1].ThemeChosen? then events[|events| - 1].theme
    else LastChosenTheme(events[..|events| - 1], current)
  }

  /**
    No event changes whether the device is a touch device, and the theme
    after any events is the one chosen last.
   */
  lemma {:induction false} RunKeepsDevice(s: PaneState, events: seq<Event>)
    ensures Run(s, events).isTouchDevice == s.isTouchDevice
    ensures Run(s, events).theme == LastChosenTheme(events, s.theme)
    decreases |events|
  {
    if |events| != 0 {
      var n := |events| - 1;
      assert events == events[..n] + [events[n]];
      RunAppend(s, events[..n], [events[n]]);
      RunKeepsDevice(s, events[..n]);
    }
  }

  /**
    Starting from the initial state, no pane event (click, hover, settings,
    theme) changes the touch flag, and the dark classes stay until a theme
    is chosen.
   */
  lemma InitialRun(isTouchDevice: bool, events: seq<Event>)
    requires forall i :: 0 <= i < |events| ==> !events[i].ThemeChosen?
    ensures Run(Initial(isTouchDevice), events).isTouchDevice == isTouchDevice
    ensures ThemeClasses(Run(Initial(isTouchDevice), events).theme) == DarkClasses
  {
    RunKeepsDevice(Initial(isTouchDevice), events);
    NoChoiceKeepsTheme(events, "dark");
  }

  /** Without a theme choice the last chosen theme is the current one. */
  lemma {:induction false} NoChoiceKeepsTheme(events: seq<Event>, current: string)
    requires forall i :: 0 <= i < |events| ==> !events[i].ThemeChosen?
    ensures LastChosenTheme(events, current) == current
    decreases |events|
  {
    if |events| != 0 {
      NoChoiceKeepsTheme(events[..|events| - 1], current);
    }
  }

  /**
    While settings stay open, no click, hover or theme choice expands or
    collapses the pane, however many arrive.
   */
  lemma {:induction false} SettingsOpenFreezesExpansion(s: PaneState, events: seq<Event>)
    requires s.isSettingsOpen
    requires forall i :: 0 <= i < |events| ==> events[i] != SettingsClosed
    ensures Run(s, events).isExpanded == s.isExpanded
    ensures Run(s, events).isSettingsOpen
    decreases |events|
  {
    if |events| != 0 {
      var s' := Step(s, events[0]);
      assert s'.isExpanded == s.isExpanded && s'.isSettingsOpen;
      SettingsOpenFreezesExpansion(s', events[1..]);
    }
  }

  /** Two taps on a touch device with settings closed leave the pane as it was. */
  lemma DoubleClickRestores(s: PaneState)
    ensures PaneClick(PaneClick(s)) == s
  {
  }

  /** `rooms.slice(0, 3)`: the rooms shown in the pane. */
  function DisplayRooms<T>(rooms: seq<T>): (shown: seq<T>)
    ensures |shown| == if |rooms| < 3 then |rooms| else 3
    ensures shown == rooms[..|shown|]
  {
    if |rooms| < 3 then rooms else rooms[..3]
  }

  /** The number behind "+N more rooms". */
  function RemainingCount<T>(rooms: seq<T>): (n: nat)
    ensures n == 0 <==> |rooms| <= 3
  {
    if |rooms| > 3 then |rooms| - 3 else 0
  }

  /** The shown rooms followed by the ones counted as remaining are exactly the list. */
  lemma DisplayAndRemainingPartition<T>(rooms: seq<T>)
    ensures |DisplayRooms(rooms)| + RemainingCount(rooms) == |rooms|
    ensures DisplayRooms(rooms) + rooms[|DisplayRooms(rooms)|..] == rooms
    ensures |rooms[|DisplayRooms(rooms)|..]| == RemainingCount(rooms)
  {
  }

  const DarkClasses: string := "bg-black/90 text-white"
  const LightClasses: string := "bg-white/90 text-black"
  const DarkGradientClasses: string :=
    "bg-gradient-to-b from-[#0B1120]/95 via-[#1B0B30]/95 to-[#0A0118]/95 text-white"
  const LightGradientClasses: string :=
    "bg-gradient-to-b from-pink-100/95 via-purple-50/95 to-blue-50/95 text-black"

  /** `getThemeClasses`: one class string per theme, and the dark one for any other value. */
  function ThemeClasses(theme: string): (classes: string)
    ensures theme !in {"light", "dark-gradient", "light-gradient"} ==> classes == DarkClasses
  {
    if theme == "dark" then DarkClasses
    else if theme == "light" then LightClasses
    else if theme == "dark-gradient" then DarkGradientClasses
    else if theme == "light-gradient" then LightGradientClasses
    else DarkClasses
  }

  /**
    The four themes look different from each other, and a value gets the
    dark classes exactly when it is not one of the three other themes.
   */
  lemma ThemeClassesDistinct(theme: string)
    ensures ThemeClasses(theme) == DarkClasses <==> theme !in {"light", "dark-gradient", "light-gradient"}
    ensures ThemeClasses("light") != ThemeClasses("dark-gradient")
    ensures ThemeClasses("light") != ThemeClasses("light-gradient")
    ensures ThemeClasses("dark-gradient") != ThemeClasses("light-gradient")
  {
    assert DarkClasses[3] == 'b' && LightClasses[3] == 'w';
    assert |DarkClasses| == |LightClasses| == 22;
    assert |DarkGradientClasses| == 78 && |LightGradientClasses| == 75;
  }
}

=== FILE: register_form.dfy ===
/**
  The registration page's form logic: password-strength scoring and its
  label and colour, field edits, validation, and the decision to send the
  registration request.

  React state is a `FormState` value; each handler returns the next state,
  and sending the request is a returned `RegisterRequest` rather than a
  `fetch`.
 */
module RegisterForm {
  import opened Optional
  import EmailPattern

  predicate IsLower(c: char) { 'a' <= c <= 'z' }
  predicate IsUpper(c: char) { 'A' <= c <= 'Z' }
  predicate IsDigit(c: char) { '0' <= c <= '9' }

  /** `[^A-Za-z0-9]`. */
  predicate IsSymbol(c: char) { !IsLower(c) && !IsUpper(c) && !IsDigit(c) }

  /** Some character of `s` satisfies `p`: what `s.match(/[...]/)` tests. */
  predicate HasChar(s: string, p: char -> bool) {
    exists i | 0 <= i < |s| :: p(s[i])
  }

  /** `calculatePasswordStrength`: one point per criterion met. */
  function PasswordStrength(password: string): (strength: nat)
    ensures strength <= 5
  {
    var s0 := 0;
    var s1 := if |password| >= 8 then s0 + 1 else s0;
    var s2 := if HasChar(password, IsLower) then s1 + 1 else s1;
    var s3 := if HasChar(password, IsUpper) then s2 + 1 else s2;
    var s4 := if HasChar(password, IsDigit) then s3 + 1 else s3;
    if HasChar(password, IsSymbol) then s4 + 1 else s4
  }

  /** The five things the strength score rewards. */
  datatype Criterion = MinLength | Lowercase | Uppercase | Digit | Symbol

  const AllCriteria: set<Criterion> := {MinLength, Lowercase, Uppercase, Digit, Symbol}

  predicate Meets(password: string, c: Criterion) {
    match c
    case MinLength => |password| >= 8
    case Lowercase => HasChar(password, IsLower)
    case Uppercase => HasChar(password, IsUpper)
    case Digit => HasChar(password, IsDigit)
    case Symbol => HasChar(password, IsSymbol)
  }

  /** The criteria a password meets. */
  function Satisfied(password: string): set<Criterion> {
    set c | c in AllCriteria && Meets(password, c)
  }

  /** Adding a criterion that may or may not be met to a set that lacks it. */
  lemma AddCriterion(s: set<Criterion>, c: Criterion, met: bool)
    requires c !in s
    ensures |s + (if met then {c} else {})| == |s| + (if met then 1 else 0)
  {
  }

  function Point(met: bool): nat { if met then 1 else 0 }

  /** The criteria named by five flags, in the order the score checks them. */
  function FlaggedCriteria(m0: bool, m1: bool, m2: bool, m3: bool, m4: bool): set<Criterion> {
    (if m0 then {MinLength} else {}) + (if m1 then {Lowercase} else {}) + (if m2 then {Uppercase} else {})
    + (if m3 then {Digit} else {}) + (if m4 then {Symbol} else {})
  }

  lemma FlaggedCriteriaSize(m0: bool, m1: bool, m2: bool, m3: bool, m4: bool)
    ensures |FlaggedCriteria(m0, m1, m2, m3, m4)| == Point(m0) + Point(m1) + Point(m2) + Point(m3) + Point(m4)
  {
    var a: set<Criterion> := if m0 then {MinLength} else {};
    var b := a + (if m1 then {Lowercase} else {});
    var c := b + (if m2 then {Uppercase} else {});
    var d := c + (if m3 then {Digit} else {});
    AddCriterion(a, Lowercase, m1);
    AddCriterion(b, Uppercase, m2);
    AddCriterion(c, Digit, m3);
    AddCriterion(d, Symbol, m4);
  }

  /** The strength is the number of criteria met. */
  lemma StrengthCountsCriteria(password: string)
    ensures PasswordStrength(password) == |Satisfied(password)|
  {
    var m0, m1, m2, m3, m4 :=
      Meets(password, MinLength), Meets(password, Lowercase), Meets(password, Uppercase),
      Meets(password, Digit), Meets(password, Symbol);
    assert PasswordStrength(password) == Point(m0) + Point(m1) + Point(m2) + Point(m3) + Point(m4);
    FlaggedCriteriaSize(m0, m1, m2, m3, m4);
    SatisfiedIsFlagged(password);
  }

  lemma SatisfiedIsFlagged(password: string)
    ensures Satisfied(password) == FlaggedCriteria(
      Meets(password, MinLength), Meets(password, Lowercase), Meets(password, Uppercase),
      Meets(password, Digit), Meets(password, Symbol))
  {
  }

  /** Appending characters never removes a criterion, so it never lowers the strength. */
  lemma StrengthMonotone(password: string, more: string)
    ensures Satisfied(password) <= Satisfied(password + more)
    ensures PasswordStrength(password) <= PasswordStrength(password + more)
  {
    var q := password + more;
    forall p: char -> bool | HasChar(password, p) ensures HasChar(q, p) {
      var i :| 0 <= i < |password| && p(password[i]);
      assert q[i] == password[i];
    }
    assert HasChar(password, IsLower) ==> HasChar(q, IsLower);
    assert HasChar(password, IsUpper) ==> HasChar(q, IsUpper);
    assert HasChar(password, IsDigit) ==> HasChar(q, IsDigit);
    assert HasChar(password, IsSymbol) ==> HasChar(q, IsSymbol);
  }

  /** The colours of the four strength buckets, weakest first. */
  const Colors: seq<string> := ["bg-red-500", "bg-yellow-500", "bg-blue-500", "bg-green-500"]

  /** The Turkish labels of the four strength buckets: weak, fair, good, strong. */
  const Labels: seq<string> := ["Zay\U{131}f", "Orta", "\U{130}yi", "G\U{fc}\U{e7}l\U{fc}"]

  /** `getPasswordStrengthColor`. */
  function StrengthColor(strength: int): (color: string)
    ensures color == Colors[Bucket(strength)]
  {
    if strength <= 2 then "bg-red-500"
    else if strength <= 3 then "bg-yellow-500"
    else if strength <= 4 then "bg-blue-500"
    else "bg-green-500"
  }

  /** `getPasswordStrengthText`. */
  function StrengthText(strength: int): (text: string)
    ensures text == Labels[Bucket(strength)]
  {
    if strength <= 2 then "Zay\U{131}f"
    else if strength <= 3 then "Orta"
    else if strength <= 4 then "\U{130}yi"
    else "G\U{fc}\U{e7}l\U{fc}"
  }

  /** The four buckets of a strength score: at most 2, 3, 4, and above. */
  function Bucket(strength: int): (b: nat)
    ensures b < 4
  {
    if strength <= 2 then 0 else if strength <= 3 then 1 else if strength <= 4 then 2 else 3
  }

  /** The colour and the label split scores into the same buckets. */
  lemma ColorAndTextShareBuckets(s1: int, s2: int)
    ensures StrengthColor(s1) == StrengthColor(s2) <==> Bucket(s1) == Bucket(s2)
    ensures StrengthText(s1) == StrengthText(s2) <==> Bucket(s1) == Bucket(s2)
  {
    assert Colors[0][3] == 'r' && Colors[1][3] == 'y' && Colors[2][3] == 'b' && Colors[3][3] == 'g';
    assert Labels[0][0] == 'Z' && Labels[1][0] == 'O' && Labels[2][0] == '\U{130}' && Labels[3][0] == 'G';
  }

  /** A set of criteria with as many members as there are criteria is all of them. */
  lemma {:induction false} FullCountIsAll(s: set<Criterion>)
    requires s <= AllCriteria
    ensures |s| == 5 <==> s == AllCriteria
  {
    assert |AllCriteria| == 5 by {
      assert AllCriteria == {MinLength} + {Lowercase} + {Uppercase} + {Digit} + {Symbol};
    }
    if s != AllCriteria {
      var c :| c in AllCriteria && c !in s;
      assert s <= AllCriteria - {c};
      SubsetCard(s, AllCriteria - {c});
    }
  }

  /** A subset has no more elements than its superset. */
  lemma {:induction false} SubsetCard(a: set<Criterion>, b: set<Criterion>)
    requires a <= b
    ensures |a| <= |b|
    decreases |b|
  {
    if a != {} {
      var x :| x in a;
      SubsetCard(a - {x}, b - {x});
    }
  }

  /** The form shows the strongest label and colour exactly when the password meets every criterion. */
  lemma StrongExactlyWhenAllCriteria(password: string)
    ensures StrengthText(PasswordStrength(password)) == Labels[3] <==> Satisfied(password) == AllCriteria
    ensures StrengthColor(PasswordStrength(password)) == Colors[3] <==> Satisfied(password) == AllCriteria
  {
    StrengthCountsCriteria(password);
    FullCountIsAll(Satisfied(password));
    var n := PasswordStrength(password);
    ColorAndTextShareBuckets(n, 5);
  }

  datatype Field = Username | Email | Password | ConfirmPassword | Phone

  datatype FormData = FormData(username: string, email: string, password: string, confirmPassword: string, phone: string)

  function Get(data: FormData, field: Field): string {
    match field
    case Username => data.username
    case Email => data.email
    case Password => data.password
    case ConfirmPassword => data.confirmPassword
    case Phone => data.phone
  }

  /** `{ ...prev, [field]: value }`. */
  function Set(data: FormData, field: Field, value: string): (r: FormData)
    ensures Get(r, field) == value
    ensures forall g :: g != field ==> Get(r, g) == Get(data, g)
  {
    match field
    case Username => data.(username := value)
    case Email => data.(email := value)
    case Password => data.(password := value)
    case ConfirmPassword => data.(confirmPassword := value)
    case Phone => data.(phone := value)
  }

  /** Why a field was rejected; each stands for one of the page's messages. */
  datatype FieldError = Required | TooShort | InvalidEmail | Mismatch | TermsNotAccepted

  /** At most one error per field, as the `ValidationErrors` object holds. */
  datatype ValidationErrors = ValidationErrors(
    username: Option<FieldError>,
    email: Option<FieldError>,
    password: Option<FieldError>,
    confirmPassword: Option<FieldError>,
    terms: Option<FieldError>)

  const NoErrors: ValidationErrors := ValidationErrors(None, None, None, None, None)

  /** The error shown under an input; the phone input has none. */
  function ErrorOf(errors: ValidationErrors, field: Field): Option<FieldError> {
    match field
    case Username => errors.username
    case Email => errors.email
    case Password => errors.password
    case ConfirmPassword => errors.confirmPassword
    case Phone => None
  }

  /** `{ ...prev, [field]: undefined }`, done only when the field has an error. */
  function ClearError(errors: ValidationErrors, field: Field): (r: ValidationErrors)
    ensures ErrorOf(r, field) == None
    ensures forall g :: g != field ==> ErrorOf(r, g) == ErrorOf(errors, g)
    ensures r.terms == errors.terms
  {
    if ErrorOf(errors, field).None? then errors
    else match field
      case Username => errors.(username := None)
      case Email => errors.(email := None)
      case Password => errors.(password := None)
      case ConfirmPassword => errors.(confirmPassword := None)
      case Phone => errors
  }

  /** The page's state that the form handlers read and write. */
  datatype FormState = FormState(
    data: FormData,
    passwordStrength: nat,
    errors: ValidationErrors,
    error: string,
    acceptTerms: bool)

  /** `handleInputChange`: store the value, rescore a password, clear that field's error and the banner. */
  function HandleInputChange(st: FormState, field: Field, value: string): (r: FormState)
    ensures Get(r.data, field) == value
    ensures forall g :: g != field ==> Get(r.data, g) == Get(st.data, g)
    ensures field == Password ==> r.passwordStrength == PasswordStrength(value)
    ensures field != Password ==> r.passwordStrength == st.passwordStrength
    ensures ErrorOf(r.errors, field) == None
    ensures forall g :: g != field ==> ErrorOf(r.errors, g) == ErrorOf(st.errors, g)
    ensures r.errors.terms == st.errors.terms
    ensures r.error == "" && r.acceptTerms == st.acceptTerms
  {
    st.(
      data := Set(st.data, field, value),
      passwordStrength := if field == Password then PasswordStrength(value) else st.passwordStrength,
      errors := ClearError(st.errors, field),
      error := "")
  }

  /** The conditions a registration must meet, one per field. */
  ghost predicate Acceptable(data: FormData, acceptTerms: bool) {
    && |data.username| >= 3
    && EmailPattern.RegexMatches(data.email)
    && |data.password| >= 8
    && data.confirmPassword != ""
    && data.confirmPassword == data.password
    && acceptTerms
  }

  /** `validateForm`: the per-field errors, and whether there are none. */
  function ValidateForm(data: FormData, acceptTerms: bool): (res: (bool, ValidationErrors))
    ensures res.0 <==> res.1 == NoErrors
    ensures res.0 <==> Acceptable(data, acceptTerms)
    ensures data.username == "" ==> res.1.username == Some(Required)
    ensures data.email == "" ==> res.1.email == Some(Required)
    ensures data.password == "" ==> res.1.password == Some(Required)
    ensures data.confirmPassword == "" ==> res.1.confirmPassword == Some(Required)
    ensures res.1.username.Some? && data.username != "" ==> res.1.username == Some(TooShort)
    ensures res.1.email.Some? && data.email != "" ==> res.1.email == Some(InvalidEmail)
    ensures res.1.password.Some? && data.password != "" ==> res.1.password == Some(TooShort)
    ensures res.1.confirmPassword.Some? && data.confirmPassword != "" ==> res.1.confirmPassword == Some(Mismatch)
    ensures res.1.terms == (if acceptTerms then None else Some(TermsNotAccepted))
    ensures res.1.username.None? <==> |data.username| >= 3
    ensures res.1.email.None? <==> EmailPattern.RegexMatches(data.email)
    ensures res.1.password.None? <==> |data.password| >= 8
    ensures res.1.confirmPassword.None? <==> data.confirmPassword != "" && data.confirmPassword == data.password
  {
    EmailPattern.MatchesIffRegex(data.email);
    var username :=
      if data.username == "" then Some(Required)
      else if |data.username| < 3 then Some(TooShort)
      else None;
    var email :=
      if data.email == "" then Some(Required)
      else if !EmailPattern.Matches(data.email) then Some(InvalidEmail)
      else None;
    var password :=
      if data.password == "" then Some(Required)
      else if |data.password| < 8 then Some(TooShort)
      else None;
    var confirm :=
      if data.confirmPassword == "" then Some(Required)
      else if data.password != data.confirmPassword then Some(Mismatch)
      else None;
    var terms := if !acceptTerms then Some(TermsNotAccepted) else None;
    var errors := ValidationErrors(username, email, password, confirm, terms);
    (errors == NoErrors, errors)
  }

  /** The body posted to the registration endpoint. */
  datatype RegisterRequest = RegisterRequest(username: string, email: string, password: string, phone: string)

  /** `handleRegister`: record the validation errors, and post the form only when there are none. */
  function HandleRegister(st: FormState): (res: (FormState, Option<RegisterRequest>))
    ensures res.1.Some? <==> Acceptable(st.data, st.acceptTerms)
    ensures res.1.Some? ==>
      res.1.value == RegisterRequest(st.data.username, st.data.email, st.data.password, st.data.phone)
    ensures res.0.errors == ValidateForm(st.data, st.acceptTerms).1
    ensures res.0.(errors := st.errors, error := st.error) == st
    ensures res.1.Some? ==> res.0.error == ""
    ensures res.1.None? ==> res.0.error == st.error
  {
    var (ok, errors) := ValidateForm(st.data, st.acceptTerms);
    var st' := st.(errors := errors);
    if !ok then (st', None)
    else (st'.(error := ""), Some(RegisterRequest(st.data.username, st.data.email, st.data.password, st.data.phone)))
  }

  /** `handleKeyPress`: Enter submits; any other key does nothing. */
  function HandleKeyPress(st: FormState, key: string): (res: (FormState, Option<RegisterRequest>))
    ensures key != "Enter" ==> res == (st, None)
    ensures key == "Enter" ==> res.0.errors == ValidateForm(st.data, st.acceptTerms).1
    ensures key == "Enter" ==> res.0.(errors := st.errors, error := st.error) == st
    ensures res.1.Some? ==>
      res.1.value == RegisterRequest(st.data.username, st.data.email, st.data.password, st.data.phone)
    ensures key == "Enter" && res.1.Some? ==> res.0.error == ""
    ensures key == "Enter" && res.1.None? ==> res.0.error == st.error
    ensures res.1.Some? <==> key == "Enter" && Acceptable(st.data, st.acceptTerms)
  {
    if key == "Enter" then HandleRegister(st) else (st, None)
  }
}

=== FILE: room_ids.dfy ===
/**
  Room identifiers of the in-memory room registry: six characters drawn
  from the upper-case Latin letters and the decimal digits.

  The source draws each character with `Math.random()`; here the six
  random draws are an explicit input, each a real in [0, 1), so the
  generator is a deterministic function of them.
 */
module RoomIds {

  /** The alphabet a room id is drawn from, in the source's order. */
  const Chars: string := "ABCDEFGHIJKLMNOPQRSTUVWXYZ0123456789"

  /** Number of characters in a generated id. */
  const IdLength: nat := 6

  /** A character a room id may contain, stated without the alphabet string. */
  predicate IsIdChar(c: char) {
    ('A' <= c <= 'Z') || ('0' <= c <= '9')
  }

  /** What every generated room id looks like. */
  predicate IsRoomId(id: string) {
    |id| == IdLength && forall i :: 0 <= i < |id| ==> IsIdChar(id[i])
  }

  /** A value `Math.random()` can return. */
  predicate IsDraw(r: real) {
    0.0 <= r < 1.0
  }

  /** `Math.floor(r * chars.length)`: the alphabet position picked by one draw. */
  function PickIndex(r: real): (i: nat)
    requires IsDraw(r)
    ensures i < |Chars|
    ensures i as real <= r * 36.0 < i as real + 1.0
  {
    (r * |Chars| as real).Floor
  }

  /** The alphabet string holds exactly the id characters. */
  lemma CharsAreIdChars()
    ensures |Chars| == 36
    ensures forall i :: 0 <= i < |Chars| ==> IsIdChar(Chars[i])
    ensures forall c :: IsIdChar(c) ==> c in Chars
  {
  }

  /** `generateRoomId`, given the six values `Math.random()` returned. */
  function GenerateRoomId(draws: seq<real>): (id: string)
    requires |draws| == IdLength
    requires forall i :: 0 <= i < |draws| ==> IsDraw(draws[i])
    ensures IsRoomId(id)
  {
    CharsAreIdChars();
    seq(IdLength, i requires 0 <= i < IdLength => Chars[PickIndex(draws[i])])
  }

  /** Every id character is reachable: any id of the right shape is produced by some draws. */
  lemma {:induction false} EveryRoomIdIsGenerated(id: string)
    requires IsRoomId(id)
    ensures exists draws: seq<real> ::
      |draws| == IdLength && (forall i :: 0 <= i < |draws| ==> IsDraw(draws[i])) &&
      GenerateRoomId(draws) == id
  {
    CharsAreIdChars();
    var idx := seq(IdLength, i requires 0 <= i < IdLength => IndexOf(id[i]));
    var draws := seq(IdLength, i requires 0 <= i < IdLength => idx[i] as real / 36.0);
    forall i | 0 <= i < IdLength ensures IsDraw(draws[i]) && PickIndex(draws[i]) == idx[i] {
      assert draws[i] * 36.0 == idx[i] as real;
    }
    assert GenerateRoomId(draws) == id;
  }

  /** The position of an id character in the alphabet. */
  function IndexOf(c: char): (i: nat)
    requires IsIdChar(c)
    ensures i < |Chars| && Chars[i] == c
  {
    if 'A' <= c <= 'Z' then (c - 'A') as int else 26 + (c - '0') as int
  }
}

=== FILE: room_page.dfy ===
/**
  The room lobby page: create a room under a fresh id, or join one by the
  id typed into the input, which the page stores upper-cased.

  Navigation (`router.push`) is a returned target path; the alert shown for
  a bad id is the absence of one.
 */
module RoomPage {
  import opened Optional
  import RoomIds

  /** Upper-casing of one character, for the Latin letters a to z. */
  function UpperChar(c: char): (u: char)
    ensures 'a' <= c <= 'z' ==> 'A' <= u <= 'Z' && u as int == c as int - 32
    ensures !('a' <= c <= 'z') ==> u == c
  {
    if 'a' <= c <= 'z' then (c as int - 32) as char else c
  }

  /** `value.toUpperCase()`, character by character. */
  function UpperCase(s: string): (r: string)
    ensures |r| == |s|
    ensures forall i :: 0 <= i < |s| ==> r[i] == UpperChar(s[i])
  {
    seq(|s|, i requires 0 <= i < |s| => UpperChar(s[i]))
  }

  /** `handleJoinIdChange`: the stored join id is the upper-cased input. */
  function HandleJoinIdChange(input: string): (joinId: string)
    ensures |joinId| == |input|
    ensures forall i :: 0 <= i < |joinId| ==> !('a' <= joinId[i] <= 'z')
    ensures forall i :: 0 <= i < |input| && 'a' <= input[i] <= 'z' ==> joinId[i] as int == input[i] as int - 32
    ensures forall i :: 0 <= i < |input| && !('a' <= input[i] <= 'z') ==> joinId[i] == input[i]
  {
    UpperCase(input)
  }

  /** Upper-casing an already upper-cased id changes nothing. */
  lemma HandleJoinIdChangeIdempotent(input: string)
    ensures HandleJoinIdChange(HandleJoinIdChange(input)) == HandleJoinIdChange(input)
  {
  }

  const RoomPrefix: string := "/room/"

  /** The page a room lives at. */
  function RoomPath(id: string): (path: string)
    ensures |path| == |RoomPrefix| + |id|
    ensures path[..|RoomPrefix|] == RoomPrefix && path[|RoomPrefix|..] == id
  {
    RoomPrefix + id
  }

  /** Different ids lead to different pages. */
  lemma RoomPathInjective(a: string, b: string)
    requires RoomPath(a) == RoomPath(b)
    ensures a == b
  {
    assert a == RoomPath(a)[|RoomPrefix|..];
  }

  /** `createRoom`: navigate to a freshly generated id. */
  function CreateRoom(draws: seq<real>): (target: string)
    requires |draws| == RoomIds.IdLength
    requires forall i :: 0 <= i < |draws| ==> RoomIds.IsDraw(draws[i])
    ensures |target| == |RoomPrefix| + RoomIds.IdLength
    ensures target[..|RoomPrefix|] == RoomPrefix
    ensures RoomIds.IsRoomId(target[|RoomPrefix|..])
  {
    RoomPath(RoomIds.GenerateRoomId(draws))
  }

  /** `joinRoom`: navigate to the stored id when it has exactly six characters, else stay. */
  function JoinRoom(joinId: string): (target: Option<string>)
    ensures target.Some? <==> |joinId| == RoomIds.IdLength
    ensures target.Some? ==> target.value == RoomPath(joinId)
  {
    if |joinId| != RoomIds.IdLength then None else Some(RoomPath(joinId))
  }

  /** Only the length of the id decides whether joining navigates; its characters do not. */
  lemma JoinDependsOnlyOnLength(a: string, b: string)
    requires |a| == |b|
    ensures JoinRoom(a).Some? <==> JoinRoom(b).Some?
  {
  }

  /**
    Typing a generated id into the join box reaches the same page as
    creating it: the id survives upper-casing and passes the length check.
   */
  lemma GeneratedIdJoinsSamePage(draws: seq<real>)
    requires |draws| == RoomIds.IdLength
    requires forall i :: 0 <= i < |draws| ==> RoomIds.IsDraw(draws[i])
    ensures JoinRoom(HandleJoinIdChange(RoomIds.GenerateRoomId(draws))) == Some(CreateRoom(draws))
  {
    var id := RoomIds.GenerateRoomId(draws);
    assert HandleJoinIdChange(id) == id;
  }
}

=== FILE: room_registry.dfy ===
/**
  The in-memory room registry: a JavaScript `Map<string, Room>` from room id
  to room, with operations to create, look up, join, leave, delete and list
  rooms.

  A JavaScript `Map` iterates its values in key-insertion order, and
  `getAllRooms` / `getRoomsByUser` expose that order, so the registry keeps
  the keys in insertion order next to the key-to-room map. Every operation
  is a pure function from the old registry to the new one; clock readings
  (`new Date()`) and random draws are parameters.
 */
module RoomRegistry {
  import opened Optional
  import Seqs
  import RoomIds

  /** A participant record; `joinedAt` is an opaque timestamp. */
  datatype Participant = Participant(
    id: string,
    userId: string,
    userName: string,
    roomId: string,
    isHost: bool,
    joinedAt: nat)

  /** A room record; `createdAt` and `updatedAt` are opaque timestamps. */
  datatype Room = Room(
    id: string,
    name: string,
    createdBy: string,
    participants: seq<Participant>,
    createdAt: nat,
    updatedAt: nat)

  /** The module-level `Map`: keys in insertion order and the key-to-room map. */
  datatype Registry = Registry(order: seq<string>, rooms: map<string, Room>)

  /** The empty map the module starts with. */
  const Empty: Registry := Registry([], map[])

  /**
    What every reachable registry satisfies: the insertion order lists each
    key once and exactly the keys present, and every room is stored under
    its own id.
   */
  ghost predicate Valid(r: Registry) {
    && Seqs.Distinct(r.order)
    && (forall k :: k in r.order <==> k in r.rooms)
    && (forall k :: k in r.rooms ==> r.rooms[k].id == k)
  }

  /** `Map.prototype.set`: a new key goes to the end of the order, an existing key keeps its place. */
  function MapSet(r: Registry, key: string, room: Room): (r': Registry)
    ensures r'.rooms == r.rooms[key := room]
    ensures key in r.rooms ==> r'.order == r.order
    ensures key !in r.rooms ==> r'.order == r.order + [key]
  {
    Registry(if key in r.rooms then r.order else r.order + [key], r.rooms[key := room])
  }

  /** Setting a room under its own id keeps the registry valid. */
  lemma MapSetValid(r: Registry, key: string, room: Room)
    requires Valid(r)
    requires room.id == key
    ensures Valid(MapSet(r, key, room))
  {
  }

  /** `getRoom`. */
  function GetRoom(r: Registry, id: string): (res: Option<Room>)
    ensures res.Some? <==> id in r.rooms
    ensures res.Some? ==> res.value == r.rooms[id]
  {
    if id in r.rooms then Some(r.rooms[id]) else None
  }

  /** `createRoom`: a fresh room with a generated id, stored under that id. */
  function CreateRoom(r: Registry, draws: seq<real>, name: string, createdBy: string, createdAt: nat, updatedAt: nat)
    : (res: (Room, Registry))
    requires |draws| == RoomIds.IdLength
    requires forall i :: 0 <= i < |draws| ==> RoomIds.IsDraw(draws[i])
    ensures RoomIds.IsRoomId(res.0.id)
    ensures res.0.id == RoomIds.GenerateRoomId(draws)
    ensures res.0.name == name && res.0.createdBy == createdBy && res.0.participants == []
    ensures GetRoom(res.1, res.0.id) == Some(res.0)
    ensures forall k :: k != res.0.id ==> GetRoom(res.1, k) == GetRoom(r, k)
    ensures res.0.id !in r.rooms ==> res.1.order == r.order + [res.0.id]
    ensures res.0.id in r.rooms ==> res.1.order == r.order
  {
    var id := RoomIds.GenerateRoomId(draws);
    var room := Room(id, name, createdBy, [], createdAt, updatedAt);
    (room, MapSet(r, id, room))
  }

  /** `createRoom` keeps the registry valid. */
  lemma CreateRoomValid(r: Registry, draws: seq<real>, name: string, createdBy: string, createdAt: nat, updatedAt: nat)
    requires Valid(r)
    requires |draws| == RoomIds.IdLength
    requires forall i :: 0 <= i < |draws| ==> RoomIds.IsDraw(draws[i])
    ensures Valid(CreateRoom(r, draws, name, createdBy, createdAt, updatedAt).1)
  {
  }

  /**
    `createRoom` does not check for an id collision: when the generated id
    is already taken, the old room and its participants are replaced and
    the registry holds no more keys than before.
   */
  lemma CreateRoomOverwrites(r: Registry, draws: seq<real>, name: string, createdBy: string, createdAt: nat, updatedAt: nat)
    requires |draws| == RoomIds.IdLength
    requires forall i :: 0 <= i < |draws| ==> RoomIds.IsDraw(draws[i])
    requires RoomIds.GenerateRoomId(draws) in r.rooms
    ensures var (room, r') := CreateRoom(r, draws, name, createdBy, createdAt, updatedAt);
      && r'.order == r.order
      && r'.rooms.Keys == r.rooms.Keys
      && r'.rooms[room.id].participants == []
  {
  }

  /** `addParticipant`: append one participant to an existing room, without deduplicating. */
  function AddParticipant(r: Registry, roomId: string, p: Participant, now: nat): (res: (Option<Room>, Registry))
    ensures res.0.None? <==> roomId !in r.rooms
    ensures res.0.None? ==> res.1 == r
    ensures res.0.Some? ==> res.0.value.participants == r.rooms[roomId].participants + [p]
    ensures res.0.Some? ==> var prev := r.rooms[roomId];
      res.0.value.(participants := prev.participants, updatedAt := prev.updatedAt) == prev
    ensures res.0.Some? ==> GetRoom(res.1, roomId) == res.0
    ensures forall k :: k != roomId ==> GetRoom(res.1, k) == GetRoom(r, k)
    ensures res.1.order == r.order
  {
    if roomId !in r.rooms then (None, r)
    else
      var prev := r.rooms[roomId];
      var room := prev.(participants := prev.participants + [p], updatedAt := now);
      (Some(room), MapSet(r, roomId, room))
  }

  /** `addParticipant` keeps the registry valid. */
  lemma AddParticipantValid(r: Registry, roomId: string, p: Participant, now: nat)
    requires Valid(r)
    ensures Valid(AddParticipant(r, roomId, p, now).1)
  {
  }

  /** Adding the same participant twice stores it twice: participants are not deduplicated. */
  lemma AddParticipantTwiceDuplicates(r: Registry, roomId: string, p: Participant, t1: nat, t2: nat)
    requires roomId in r.rooms
    ensures var r1 := AddParticipant(r, roomId, p, t1).1;
      var r2 := AddParticipant(r1, roomId, p, t2).1;
      && r2.rooms[roomId].participants == r.rooms[roomId].participants + [p, p]
      && |r2.rooms[roomId].participants| == |r.rooms[roomId].participants| + 2
  {
  }

  /** The participants that stay when `userId` leaves. */
  function Without(ps: seq<Participant>, userId: string): (rest: seq<Participant>)
    ensures forall q :: q in rest <==> q in ps && q.userId != userId
  {
    Seqs.Filter(ps, (q: Participant) => q.userId != userId)
  }

  /** `removeParticipant`: drop every participant with the given user id from an existing room. */
  function RemoveParticipant(r: Registry, roomId: string, userId: string, now: nat): (res: (Option<Room>, Registry))
    ensures res.0.None? <==> roomId !in r.rooms
    ensures res.0.None? ==> res.1 == r
    ensures res.0.Some? ==> forall q :: q in res.0.value.participants <==>
      q in r.rooms[roomId].participants && q.userId != userId
    ensures res.0.Some? ==> res.0.value.participants == Without(r.rooms[roomId].participants, userId)
    ensures res.0.Some? ==> var prev := r.rooms[roomId];
      res.0.value.(participants := prev.participants, updatedAt := prev.updatedAt) == prev
    ensures res.0.Some? ==> GetRoom(res.1, roomId) == res.0
    ensures forall k :: k != roomId ==> GetRoom(res.1, k) == GetRoom(r, k)
    ensures res.1.order == r.order
  {
    if roomId !in r.rooms then (None, r)
    else
      var prev := r.rooms[roomId];
      var room := prev.(participants := Without(prev.participants, userId), updatedAt := now);
      (Some(room), MapSet(r, roomId, room))
  }

  /** `removeParticipant` keeps the registry valid. */
  lemma RemoveParticipantValid(r: Registry, roomId: string, userId: string, now: nat)
    requires Valid(r)
    ensures Valid(RemoveParticipant(r, roomId, userId, now).1)
  {
  }

  /** Removing keeps the remaining participants in their original relative order. */
  lemma RemoveParticipantKeepsOrder(ps: seq<Participant>, qs: seq<Participant>, userId: string)
    ensures Without(ps + qs, userId) == Without(ps, userId) + Without(qs, userId)
  {
    Seqs.FilterAppend(ps, qs, (q: Participant) => q.userId != userId);
  }

  /** Removing a user that is not in the room leaves the participant list as it was. */
  lemma RemoveAbsentUserKeepsParticipants(ps: seq<Participant>, userId: string)
    requires forall i :: 0 <= i < |ps| ==> ps[i].userId != userId
    ensures Without(ps, userId) == ps
  {
    Seqs.FilterKeepsAll(ps, (q: Participant) => q.userId != userId);
  }

  /** `removeParticipant` is idempotent: a second removal at the same instant changes nothing. */
  lemma RemoveParticipantIdempotent(r: Registry, roomId: string, userId: string, now: nat)
    ensures var r1 := RemoveParticipant(r, roomId, userId, now).1;
      RemoveParticipant(r1, roomId, userId, now).1 == r1
  {
    if roomId in r.rooms {
      Seqs.FilterIdempotent(r.rooms[roomId].participants, (q: Participant) => q.userId != userId);
    }
  }

  /** The keys and the rooms that survive deleting `id`. */
  function OtherKey(id: string): string -> bool {
    (k: string) => k != id
  }

  function OtherRoom(id: string): Room -> bool {
    (room: Room) => room.id != id
  }

  /** `Map.prototype.delete`, which is all `deleteRoom` does. */
  function DeleteRoom(r: Registry, id: string): (res: (bool, Registry))
    ensures res.0 <==> id in r.rooms
    ensures !res.0 ==> res.1 == r
    ensures GetRoom(res.1, id) == None
    ensures forall k :: k != id ==> GetRoom(res.1, k) == GetRoom(r, k)
  {
    if id !in r.rooms then (false, r)
    else (true, Registry(Seqs.Filter(r.order, OtherKey(id)), r.rooms - {id}))
  }

  /** `deleteRoom` keeps the registry valid. */
  lemma DeleteRoomValid(r: Registry, id: string)
    requires Valid(r)
    ensures Valid(DeleteRoom(r, id).1)
  {
    Seqs.FilterDistinct(r.order, OtherKey(id));
  }

  /** The rooms stored under `keys`, in that order. */
  function Lookup(keys: seq<string>, rooms: map<string, Room>): (vs: seq<Room>)
    requires forall k :: k in keys ==> k in rooms
    ensures |vs| == |keys|
    ensures forall i :: 0 <= i < |keys| ==> vs[i] == rooms[keys[i]]
    decreases |keys|
  {
    if |keys| == 0 then [] else [rooms[keys[0]]] + Lookup(keys[1..], rooms)
  }

  /** `getAllRooms`: the stored rooms in insertion order, each once. */
  function GetAllRooms(r: Registry): (all: seq<Room>)
    requires Valid(r)
    ensures |all| == |r.order| == |r.rooms|
    ensures forall room :: room in all <==> room in r.rooms.Values
    ensures forall i :: 0 <= i < |all| ==> all[i].id == r.order[i]
  {
    DistinctCount(r);
    var all := Lookup(r.order, r.rooms);
    assert forall room :: room in r.rooms.Values ==> room in all by {
      forall room | room in r.rooms.Values ensures room in all {
        var k :| k in r.rooms && r.rooms[k] == room;
        var i :| 0 <= i < |r.order| && r.order[i] == k;
        assert all[i] == room;
      }
    }
    all
  }

  /** A valid registry lists as many keys in its order as the map holds. */
  lemma DistinctCount(r: Registry)
    requires Valid(r)
    ensures |r.order| == |r.rooms|
  {
    DistinctSeqCard(r.order);
    assert (set k | k in r.order) == r.rooms.Keys;
  }

  /** A duplicate-free sequence has as many elements as its set of elements. */
  lemma {:induction false} DistinctSeqCard(s: seq<string>)
    requires Seqs.Distinct(s)
    ensures |set k | k in s| == |s|
    decreases |s|
  {
    if |s| != 0 {
      var tail := s[1..];
      assert Seqs.Distinct(tail) by {
        forall i, j | 0 <= i < j < |tail| ensures tail[i] != tail[j] {
          assert tail[i] == s[i + 1] && tail[j] == s[j + 1];
        }
      }
      DistinctSeqCard(tail);
      assert s[0] !in tail by {
        forall i | 0 <= i < |tail| ensures tail[i] != s[0] {
          assert tail[i] == s[i + 1];
        }
      }
      assert (set k | k in s) == (set k | k in tail) + {s[0]};
    }
  }

  /** Looking up one more key, stored under a new map entry, lists one more room at the end. */
  lemma LookupAppend(keys: seq<string>, rooms: map<string, Room>, key: string, room: Room)
    requires forall k :: k in keys ==> k in rooms
    requires key !in keys
    ensures Lookup(keys + [key], rooms[key := room]) == Lookup(keys, rooms) + [room]
  {
    var ks := keys + [key];
    var a := Lookup(ks, rooms[key := room]);
    var b := Lookup(keys, rooms) + [room];
    forall i | 0 <= i < |ks| ensures a[i] == b[i] {
      if i < |keys| {
        assert ks[i] == keys[i] && keys[i] != key;
      }
    }
  }

  /** A room created under a fresh id is listed last by `getAllRooms`, after all earlier rooms. */
  lemma CreateRoomListsLast(r: Registry, draws: seq<real>, name: string, createdBy: string, createdAt: nat, updatedAt: nat)
    requires Valid(r)
    requires |draws| == RoomIds.IdLength
    requires forall i :: 0 <= i < |draws| ==> RoomIds.IsDraw(draws[i])
    requires RoomIds.GenerateRoomId(draws) !in r.rooms
    ensures var (room, r') := CreateRoom(r, draws, name, createdBy, createdAt, updatedAt);
      GetAllRooms(r') == GetAllRooms(r) + [room]
  {
    var (room, r') := CreateRoom(r, draws, name, createdBy, createdAt, updatedAt);
    CreateRoomValid(r, draws, name, createdBy, createdAt, updatedAt);
    LookupAppend(r.order, r.rooms, room.id, room);
  }

  /** Dropping a key before the lookup drops the room stored under it after the lookup. */
  lemma {:induction false} LookupWithout(keys: seq<string>, rooms: map<string, Room>, id: string)
    requires forall k :: k in keys ==> k in rooms && rooms[k].id == k
    ensures Lookup(Seqs.Filter(keys, OtherKey(id)), rooms - {id}) == Seqs.Filter(Lookup(keys, rooms), OtherRoom(id))
    decreases |keys|
  {
    if |keys| != 0 {
      var vs := Lookup(keys, rooms);
      assert vs[1..] == Lookup(keys[1..], rooms);
      LookupWithout(keys[1..], rooms, id);
      var rest := Seqs.Filter(keys[1..], OtherKey(id));
      if keys[0] != id {
        LookupCons(keys[0], rest, rooms - {id});
      }
    }
  }

  /** Looking up a key in front of others lists its room in front. */
  lemma LookupCons(key: string, keys: seq<string>, rooms: map<string, Room>)
    requires key in rooms
    requires forall k :: k in keys ==> k in rooms
    ensures Lookup([key] + keys, rooms) == [rooms[key]] + Lookup(keys, rooms)
  {
    assert ([key] + keys)[1..] == keys;
  }

  /** `deleteRoom` removes the room from `getAllRooms` and keeps the others in their order. */
  lemma DeleteRoomListing(r: Registry, id: string)
    requires Valid(r)
    ensures Valid(DeleteRoom(r, id).1)
    ensures GetAllRooms(DeleteRoom(r, id).1) == Seqs.Filter(GetAllRooms(r), OtherRoom(id))
  {
    DeleteRoomValid(r, id);
    var all := GetAllRooms(r);
    if id !in r.rooms {
      forall i | 0 <= i < |all| ensures OtherRoom(id)(all[i]) {
        assert all[i].id == r.order[i] && r.order[i] in r.rooms;
      }
      Seqs.FilterKeepsAll(all, OtherRoom(id));
    } else {
      var r' := DeleteRoom(r, id).1;
      assert r'.order == Seqs.Filter(r.order, OtherKey(id)) && r'.rooms == r.rooms - {id};
      assert GetAllRooms(r') == Lookup(r'.order, r'.rooms);
      assert all == Lookup(r.order, r.rooms);
      LookupWithout(r.order, r.rooms, id);
    }
  }

  /** The `some(p => p.userId === userId)` test of `getRoomsByUser`. */
  predicate HasParticipant(room: Room, userId: string) {
    exists i :: 0 <= i < |room.participants| && room.participants[i].userId == userId
  }

  /** The room was created by the user or lists the user as a participant. */
  predicate Involves(room: Room, userId: string) {
    room.createdBy == userId || HasParticipant(room, userId)
  }

  /** The `getRoomsByUser` test as a function value, on rooms and on their keys. */
  function InvolvesRoom(userId: string): Room -> bool {
    (room: Room) => Involves(room, userId)
  }

  function InvolvesKey(rooms: map<string, Room>, userId: string): string -> bool {
    (k: string) => k in rooms && Involves(rooms[k], userId)
  }

  /** The ids of a list of rooms, position by position. */
  function Ids(rooms: seq<Room>): (ids: seq<string>)
    ensures |ids| == |rooms|
    ensures forall i :: 0 <= i < |rooms| ==> ids[i] == rooms[i].id
  {
    seq(|rooms|, i requires 0 <= i < |rooms| => rooms[i].id)
  }

  lemma IdsAppend(a: seq<Room>, b: seq<Room>)
    ensures Ids(a + b) == Ids(a) + Ids(b)
  {
  }

  /**
    Looking rooms up by key and then filtering them gives, id for id, the
    keys filtered by the same test: the filter keeps the keys' order.
   */
  lemma {:induction false} FilterLookupIds(keys: seq<string>, rooms: map<string, Room>, userId: string)
    requires forall k :: k in keys ==> k in rooms && rooms[k].id == k
    ensures Ids(Seqs.Filter(Lookup(keys, rooms), InvolvesRoom(userId))) == Seqs.Filter(keys, InvolvesKey(rooms, userId))
    decreases |keys|
  {
    if |keys| != 0 {
      var vs := Lookup(keys, rooms);
      assert vs[1..] == Lookup(keys[1..], rooms);
      FilterLookupIds(keys[1..], rooms, userId);
      var head := if InvolvesRoom(userId)(vs[0]) then [vs[0]] else [];
      var tail := Seqs.Filter(vs[1..], InvolvesRoom(userId));
      assert Seqs.Filter(vs, InvolvesRoom(userId)) == head + tail;
      IdsAppend(head, tail);
      assert Ids(head) == if InvolvesKey(rooms, userId)(keys[0]) then [keys[0]] else [];
    }
  }

  /**
    `getRoomsByUser`: the stored rooms the user created or takes part in, in
    insertion order, each once.
   */
  function GetRoomsByUser(r: Registry, userId: string): (res: seq<Room>)
    requires Valid(r)
    ensures forall room :: room in res <==>
      room in r.rooms.Values &&
      (room.createdBy == userId || exists p :: p in room.participants && p.userId == userId)
    ensures Ids(res) == Seqs.Filter(r.order, InvolvesKey(r.rooms, userId))
    ensures Seqs.Distinct(res)
  {
    var res := Seqs.Filter(GetAllRooms(r), InvolvesRoom(userId));
    FilterLookupIds(r.order, r.rooms, userId);
    Seqs.FilterDistinct(r.order, InvolvesKey(r.rooms, userId));
    assert Seqs.Distinct(res) by {
      forall i, j | 0 <= i < j < |res| ensures res[i] != res[j] {
        assert Ids(res)[i] != Ids(res)[j];
      }
    }
    res
  }

  /** The registry starts valid and empty. */
  lemma EmptyValid()
    ensures Valid(Empty)
    ensures GetAllRooms(Empty) == []
  {
  }
}

=== FILE: seqs.dfy ===
/**
  Sequence helpers shared by the models of the in-memory stores: the
  `Array.prototype.filter` and `Array.prototype.find` / `findIndex` that both
  registries lean on, and the "no duplicates" property.
 */
module Seqs {
  import opened Optional

  /** The elements of `s` that satisfy `keep`, in their original order. */
  function Filter<T(!new)>(s: seq<T>, keep: T -> bool): (r: seq<T>)
    ensures |r| <= |s|
    ensures forall x :: x in r <==> x in s && keep(x)
    decreases |s|
  {
    if |s| == 0 then []
    else (if keep(s[0]) then [s[0]] else []) + Filter(s[1..], keep)
  }

  /** Filtering keeps every occurrence of a kept element and none of a dropped one. */
  lemma {:induction false} FilterMultiplicity<T(!new)>(s: seq<T>, keep: T -> bool)
    ensures forall x :: multiset(Filter(s, keep))[x] == if keep(x) then multiset(s)[x] else 0
    decreases |s|
  {
    if |s| != 0 {
      FilterMultiplicity(s[1..], keep);
      assert s == [s[0]] + s[1..];
    }
  }

  /** The index of the first element of `s` satisfying `p`, if any. */
  function FirstIndex<T>(s: seq<T>, p: T -> bool): (r: Option<nat>)
    ensures r.None? <==> forall i :: 0 <= i < |s| ==> !p(s[i])
    ensures r.Some? ==> r.value < |s| && p(s[r.value])
    ensures r.Some? ==> forall j :: 0 <= j < r.value ==> !p(s[j])
    decreases |s|
  {
    if |s| == 0 then None
    else if p(s[0]) then Some(0)
    else match FirstIndex(s[1..], p)
      case None => None
      case Some(i) => Some(i + 1)
  }

  /** No element occurs twice. */
  predicate Distinct<T(==)>(s: seq<T>) {
    forall i, j :: 0 <= i < j < |s| ==> s[i] != s[j]
  }

  /** Filtering distributes over concatenation, so relative order is kept. */
  lemma {:induction false} FilterAppend<T(!new)>(a: seq<T>, b: seq<T>, keep: T -> bool)
    ensures Filter(a + b, keep) == Filter(a, keep) + Filter(b, keep)
    decreases |a|
  {
    if |a| == 0 {
      assert a + b == b;
    } else {
      assert (a + b)[1..] == a[1..] + b;
      FilterAppend(a[1..], b, keep);
    }
  }

  /** Filtering a sequence whose every element is kept changes nothing. */
  lemma {:induction false} FilterKeepsAll<T(!new)>(s: seq<T>, keep: T -> bool)
    requires forall i :: 0 <= i < |s| ==> keep(s[i])
    ensures Filter(s, keep) == s
    decreases |s|
  {
    if |s| != 0 {
      FilterKeepsAll(s[1..], keep);
    }
  }

  /** Filtering twice with the same predicate is filtering once. */
  lemma FilterIdempotent<T(!new)>(s: seq<T>, keep: T -> bool)
    ensures Filter(Filter(s, keep), keep) == Filter(s, keep)
  {
    var r := Filter(s, keep);
    forall i | 0 <= i < |r|
      ensures keep(r[i])
    {
      assert r[i] in r;
    }
    FilterKeepsAll(r, keep);
  }

  /** Filtering a duplicate-free sequence yields a duplicate-free sequence. */
  lemma {:induction false} FilterDistinct<T(!new)>(s: seq<T>, keep: T -> bool)
    requires Distinct(s)
    ensures Distinct(Filter(s, keep))
    decreases |s|
  {
    if |s| != 0 {
      var tail := s[1..];
      assert Distinct(tail) by {
        forall i, j | 0 <= i < j < |tail| ensures tail[i] != tail[j] {
          assert tail[i] == s[i + 1] && tail[j] == s[j + 1];
        }
      }
      FilterDistinct(tail, keep);
      assert s[0] !in tail by {
        forall i | 0 <= i < |tail| ensures tail[i] != s[0] {
          assert tail[i] == s[i + 1];
        }
      }
      var rest := Filter(tail, keep);
      assert s[0] !in rest;
      var head: seq<T> := if keep(s[0]) then [s[0]] else [];
      assert Filter(s, keep) == head + rest;
      forall i, j | 0 <= i < j < |head + rest|
        ensures (head + rest)[i] != (head + rest)[j]
      {
        if i < |head| {
          assert (head + rest)[j] == rest[j - |head|];
        }
      }
    }
  }

  /** Appending an element absent from a duplicate-free sequence keeps it duplicate-free. */
  lemma AppendFreshDistinct<T>(s: seq<T>, x: T)
    requires Distinct(s)
    requires x !in s
    ensures Distinct(s + [x])
  {
  }

  /** Appending an element does not move an existing first match, and may supply one. */
  lemma {:induction false} FirstIndexAppend<T>(s: seq<T>, x: T, p: T -> bool)
    ensures FirstIndex(s + [x], p) ==
      match FirstIndex(s, p)
      case Some(i) => Some(i)
      case None => if p(x) then Some(|s|) else None
    decreases |s|
  {
    if |s| != 0 {
      assert (s + [x])[0] == s[0];
      assert (s + [x])[1..] == s[1..] + [x];
      FirstIndexAppend(s[1..], x, p);
    } else {
      assert s + [x] == [x];
    }
  }

  /** Replacing the first match by another matching element keeps it the first match. */
  lemma {:induction false} FirstIndexUpdate<T>(s: seq<T>, i: nat, v: T, p: T -> bool)
    requires FirstIndex(s, p) == Some(i)
    requires p(v)
    ensures FirstIndex(s[i := v], p) == Some(i)
    decreases |s|
  {
    if i != 0 {
      assert s[i := v][1..] == s[1..][i - 1 := v];
      FirstIndexUpdate(s[1..], i - 1, v, p);
    }
  }
}

=== FILE: user_store.dfy ===
/**
  The in-memory user and room lists: users with hashed passwords, and rooms
  whose participants are usernames.

  Both lists are arrays the module mutates in place; here a `Db` value holds
  them and every operation returns the new value. Lookups return the first
  match, as `Array.prototype.find` does, and joining or leaving acts on that
  first match. Password hashing is an oracle parameter and the room id,
  drawn from `Math.random()` in the source, is a parameter.
 */
module UserStore {
  import opened Optional
  import Seqs

  datatype User = User(username: string, password: string, email: string)

  datatype Room = Room(id: string, name: string, createdBy: string, participants: seq<string>)

  datatype Db = Db(users: seq<User>, rooms: seq<Room>)

  /** The position of the first user with this username. */
  function UserIndex(db: Db, username: string): Option<nat> {
    Seqs.FirstIndex(db.users, (u: User) => u.username == username)
  }

  /** `findUser`: the first user with this username, or null when there is none. */
  function FindUser(db: Db, username: string): (res: Option<User>)
    ensures res.None? <==> forall i :: 0 <= i < |db.users| ==> db.users[i].username != username
    ensures res.Some? ==> exists i :: (0 <= i < |db.users| && db.users[i] == res.value &&
      forall j :: 0 <= j < i ==> db.users[j].username != username)
    ensures res.Some? ==> res.value.username == username
  {
    match UserIndex(db, username)
    case None => None
    case Some(i) => Some(db.users[i])
  }

  /** `createUser`: append one user with the hashed password; usernames are not checked for duplicates. */
  function CreateUser(db: Db, username: string, password: string, email: string, hash: string -> string)
    : (res: (User, Db))
    ensures res.0 == User(username, hash(password), email)
    ensures res.1.users == db.users + [res.0]
    ensures res.1.rooms == db.rooms
  {
    var user := User(username, hash(password), email);
    (user, db.(users := db.users + [user]))
  }

  /**
    Because `createUser` does not reject a taken username, a second account
    with the same name is stored but shadowed: `findUser` keeps returning
    the earlier one. A fresh name is found as the new user.
   */
  lemma CreateUserShadowing(db: Db, username: string, password: string, email: string, hash: string -> string)
    ensures var (user, db') := CreateUser(db, username, password, email, hash);
      && |db'.users| == |db.users| + 1
      && (FindUser(db, username).Some? ==> FindUser(db', username) == FindUser(db, username))
      && (FindUser(db, username).None? ==> FindUser(db', username) == Some(user))
  {
    var (user, db') := CreateUser(db, username, password, email, hash);
    Seqs.FirstIndexAppend(db.users, user, (u: User) => u.username == username);
    assert db'.users[|db.users|] == user;
    if UserIndex(db, username).Some? {
      assert db'.users[UserIndex(db, username).value] == db.users[UserIndex(db, username).value];
    }
  }

  /** `createRoom`: append a room whose only participant is its creator. */
  function CreateRoom(db: Db, id: string, name: string, createdBy: string): (res: (Room, Db))
    ensures res.0.participants == [createdBy]
    ensures res.0.id == id && res.0.name == name && res.0.createdBy == createdBy
    ensures res.1.rooms == db.rooms + [res.0]
    ensures res.1.users == db.users
  {
    var room := Room(id, name, createdBy, [createdBy]);
    (room, db.(rooms := db.rooms + [room]))
  }

  /** The position of the first room with this id. */
  function RoomIndex(db: Db, id: string): (res: Option<nat>)
    ensures res.None? <==> forall i :: 0 <= i < |db.rooms| ==> db.rooms[i].id != id
    ensures res.Some? ==> res.value < |db.rooms| && db.rooms[res.value].id == id
    ensures res.Some? ==> forall j :: 0 <= j < res.value ==> db.rooms[j].id != id
  {
    Seqs.FirstIndex(db.rooms, (r: Room) => r.id == id)
  }

  /** `findRoom`: the first room with this id, or null when there is none. */
  function FindRoom(db: Db, id: string): (res: Option<Room>)
    ensures res.None? <==> forall i :: 0 <= i < |db.rooms| ==> db.rooms[i].id != id
    ensures res.Some? ==> exists i :: (0 <= i < |db.rooms| && db.rooms[i] == res.value &&
      forall j :: 0 <= j < i ==> db.rooms[j].id != id)
    ensures res.Some? ==> res.value.id == id
  {
    match RoomIndex(db, id)
    case None => None
    case Some(i) => Some(db.rooms[i])
  }

  /** The `findRoomsByUser` test as a function value. */
  function ListsUser(username: string): Room -> bool {
    (r: Room) => username in r.participants
  }

  /**
    `findRoomsByUser`: the rooms listing the username as a participant, in
    list order, each as often as the list holds it.
   */
  function FindRoomsByUser(db: Db, username: string): (res: seq<Room>)
    ensures forall r :: r in res <==> r in db.rooms && username in r.participants
    ensures forall r :: multiset(res)[r] == if username in r.participants then multiset(db.rooms)[r] else 0
  {
    Seqs.FilterMultiplicity(db.rooms, ListsUser(username));
    Seqs.Filter(db.rooms, ListsUser(username))
  }

  /** `findRoomsByUser` on two lists in a row finds the first list's rooms before the second's. */
  lemma FindRoomsByUserAppend(users: seq<User>, a: seq<Room>, b: seq<Room>, username: string)
    ensures FindRoomsByUser(Db(users, a + b), username) ==
      FindRoomsByUser(Db(users, a), username) + FindRoomsByUser(Db(users, b), username)
  {
    Seqs.FilterAppend(a, b, ListsUser(username));
  }

  /**
    A room created afterwards comes last in `findRoomsByUser`, and only for
    its creator: the rooms found before keep their order.
   */
  lemma FindRoomsByUserAfterCreate(db: Db, id: string, name: string, createdBy: string, username: string)
    ensures var (room, db') := CreateRoom(db, id, name, createdBy);
      FindRoomsByUser(db', username) ==
        FindRoomsByUser(db, username) + (if username == createdBy then [room] else [])
  {
    var (room, db') := CreateRoom(db, id, name, createdBy);
    Seqs.FilterAppend(db.rooms, [room], ListsUser(username));
    assert username in room.participants <==> username == createdBy;
    assert Seqs.Filter([room], ListsUser(username)) == if username == createdBy then [room] else [] by {
      assert [room][1..] == [];
    }
  }

  /**
    `joinRoom`: add the username to the first room with this id unless it is
    already a participant; null, and no change, when no room has the id.
   */
  function JoinRoom(db: Db, roomId: string, username: string): (res: (Option<Room>, Db))
    ensures res.0.None? <==> FindRoom(db, roomId).None?
    ensures res.0.None? ==> res.1 == db
    ensures res.0.Some? ==> var before := FindRoom(db, roomId).value;
      && username in res.0.value.participants
      && res.0.value.(participants := before.participants) == before
      && (username in before.participants ==> res.0.value == before)
      && (username !in before.participants ==> res.0.value.participants == before.participants + [username])
    ensures res.1.users == db.users && |res.1.rooms| == |db.rooms|
    ensures forall i :: 0 <= i < |db.rooms| && Some(i) != RoomIndex(db, roomId) ==> res.1.rooms[i] == db.rooms[i]
    ensures res.0.Some? ==> res.1.rooms[RoomIndex(db, roomId).value] == res.0.value
  {
    match RoomIndex(db, roomId)
    case None => (None, db)
    case Some(i) =>
      var room := db.rooms[i];
      var joined := if username in room.participants then room
                    else room.(participants := room.participants + [username]);
      (Some(joined), db.(rooms := db.rooms[i := joined]))
  }

  /** `leaveRoom`: drop every occurrence of the username from the first room with this id. */
  function LeaveRoom(db: Db, roomId: string, username: string): (res: (Option<Room>, Db))
    ensures res.0.None? <==> FindRoom(db, roomId).None?
    ensures res.0.None? ==> res.1 == db
    ensures res.0.Some? ==> var before := FindRoom(db, roomId).value;
      && username !in res.0.value.participants
      && (forall n :: n in res.0.value.participants <==> n in before.participants && n != username)
      && res.0.value == before.(participants := Seqs.Filter(before.participants, (n: string) => n != username))
    ensures res.1.users == db.users && |res.1.rooms| == |db.rooms|
    ensures forall i :: 0 <= i < |db.rooms| && Some(i) != RoomIndex(db, roomId) ==> res.1.rooms[i] == db.rooms[i]
    ensures res.0.Some? ==> res.1.rooms[RoomIndex(db, roomId).value] == res.0.value
  {
    match RoomIndex(db, roomId)
    case None => (None, db)
    case Some(i) =>
      var room := db.rooms[i];
      var left := room.(participants := Seqs.Filter(room.participants, (n: string) => n != username));
      (Some(left), db.(rooms := db.rooms[i := left]))
  }

  /** Joining twice is joining once. */
  lemma JoinRoomIdempotent(db: Db, roomId: string, username: string)
    ensures var (r1, db1) := JoinRoom(db, roomId, username);
      JoinRoom(db1, roomId, username) == (r1, db1)
  {
    var (r1, db1) := JoinRoom(db, roomId, username);
    if r1.Some? {
      var i := RoomIndex(db, roomId).value;
      Seqs.FirstIndexUpdate(db.rooms, i, r1.value, (r: Room) => r.id == roomId);
      assert RoomIndex(db1, roomId) == Some(i);
      assert db1.rooms[i] == r1.value;
      assert db1.rooms[i := r1.value] == db1.rooms;
    }
  }

  /** No participant is listed twice in any room. */
  predicate NoDuplicateParticipants(db: Db) {
    forall i :: 0 <= i < |db.rooms| ==> Seqs.Distinct(db.rooms[i].participants)
  }

  /** `createRoom`, `joinRoom` and `leaveRoom` keep every participant list duplicate-free. */
  lemma RoomOperationsKeepParticipantsDistinct(db: Db, id: string, name: string, who: string, roomId: string, username: string)
    requires NoDuplicateParticipants(db)
    ensures NoDuplicateParticipants(CreateRoom(db, id, name, who).1)
    ensures NoDuplicateParticipants(JoinRoom(db, roomId, username).1)
    ensures NoDuplicateParticipants(LeaveRoom(db, roomId, username).1)
  {
    var created := CreateRoom(db, id, name, who).1;
    assert forall i :: 0 <= i < |db.rooms| ==> created.rooms[i] == db.rooms[i];
    match RoomIndex(db, roomId)
    case None =>
    case Some(i) =>
      var ps := db.rooms[i].participants;
      if username !in ps {
        Seqs.AppendFreshDistinct(ps, username);
      }
      Seqs.FilterDistinct(ps, (n: string) => n != username);
  }

  /** For a username not yet in the room, joining and then leaving restores the database. */
  lemma JoinThenLeaveRestores(db: Db, roomId: string, username: string)
    requires FindRoom(db, roomId).Some? ==> username !in FindRoom(db, roomId).value.participants
    ensures LeaveRoom(JoinRoom(db, roomId, username).1, roomId, username).1 == db
  {
    var (r1, db1) := JoinRoom(db, roomId, username);
    if r1.Some? {
      var i := RoomIndex(db, roomId).value;
      var ps := db.rooms[i].participants;
      Seqs.FirstIndexUpdate(db.rooms, i, r1.value, (r: Room) => r.id == roomId);
      var keep := (n: string) => n != username;
      Seqs.FilterAppend(ps, [username], keep);
      assert Seqs.Filter([username], keep) == [];
      Seqs.FilterKeepsAll(ps, keep);
      assert Seqs.Filter(r1.value.participants, keep) == ps;
      assert db.rooms[i := db.rooms[i]] == db.rooms;
    }
  }

  /** Leaving twice is leaving once. */
  lemma LeaveRoomIdempotent(db: Db, roomId: string, username: string)
    ensures var (r1, db1) := LeaveRoom(db, roomId, username);
      LeaveRoom(db1, roomId, username) == (r1, db1)
  {
    var (r1, db1) := LeaveRoom(db, roomId, username);
    if r1.Some? {
      var i := RoomIndex(db, roomId).value;
      Seqs.FirstIndexUpdate(db.rooms, i, r1.value, (r: Room) => r.id == roomId);
      assert RoomIndex(db1, roomId) == Some(i);
      Seqs.FilterIdempotent(db.rooms[i].participants, (n: string) => n != username);
      assert db1.rooms[i] == r1.value;
      assert db1.rooms[i := r1.value] == db1.rooms;
    }
  }
}
